=== FILE: README.md ===
# Cargo booking wizard: the wizard engine in Dafny

This project models the engine of a multi-step shipment-booking form. The
form has three editing steps and a confirmation screen:

- **Personal information** validates the full name, email and phone number.
- **Cargo description** has a fixed six-entry shipping-item catalog. It
  validates item, cargo type, addresses, delivery date, weight and special
  instructions. Choosing an item auto-fills the weight and the item's name.
- **Price summary** validates the three dimensions and the payment method.
  It derives a price breakdown from weight, volume and cargo type, and
  writes the total back into the shared booking record.
- **Navigation** keeps a 1-based step index that moves one step per click,
  within bounds. It maps the index to a screen and decides whether the
  navigation control is shown.

The record is an immutable `map<string, Value>`, where `Value` is
`Undefined | Str | Num`. Each step's errors are a `map<string, string>`, and
an empty message means the field is valid. Every event handler is a pure
function from a `Form` (record plus errors) to the next `Form`. The
JavaScript runtime's `parseFloat` and `new Date(...)` are not modelled;
they arrive as parameters in `Store.Env`, together with the two clock
readings the date rule uses. Numbers are exact `real`s, and `Math.round`
is modelled as `Round(x) = (x + 1/2).Floor`.

Files: `store.dfy` (record, errors, values, merge), `text.dfy` (whitespace
class, `trim`, number rendering), `personal_info.dfy`, `details.dfy`,
`payment.dfy`, `app.dfy`.

Facts about the code that the model keeps, where a reader might expect
otherwise:

- The app starts `userData` as `""`, not `{}`. Every access the core makes
  treats it like an empty object: spread gives `{}`, and a property read
  gives `undefined`. The one exception is `.length`, which gives `0`, and
  pricing treats that the same as an absent value. So the model starts
  from the empty map.
- The delivery-address rule checks length before equality. So a delivery
  address that equals the pickup address but is shorter than ten characters
  gets the length message, not "must be different".
- Pricing rounds the exact sum of weight price, volume price and fee once.
  It does not add up the rounded parts, so the total can differ from the sum
  of the displayed parts.
- When an input does not parse, pricing returns the bare number `0`, not a
  breakdown. The render reads `pricing.weightPrice` and `pricing.total`
  (src/components/steps/Payment.jsx:175-191) as though it always were one,
  and the write-back stores `pricing.total`, which is then `undefined`.
- `displayStep(4)` shows the final screen (src/App.jsx:32-33), and the
  control is hidden at step 4 (src/App.jsx:62). But the guard at
  src/App.jsx:43 never lets the index reach 4.
- The weight rule reads the selected item from the record
  (src/components/steps/Details.jsx:74-76). But the auto-fill replaces the
  record with one built from the pre-change `userData`
  (src/components/steps/Details.jsx:112-117), so the selection is never
  kept and that rule never sees an item.

The last three are listed under "Findings".

## Model

| member | source | states |
|---|---|---|
| `Store.Put` | src/components/steps/PersonalInfo.jsx:40 | The spread update writes one key. Every other key keeps its presence and its value. |
| `Store.Merge` | src/components/steps/Details.jsx:112-116 | A shallow merge keeps every key of both sides, and the partial record wins on shared keys. |
| `Store.GetMerge` | src/components/steps/Details.jsx:112-116 | Reading a merged record gives the partial record's entry if it has the key, otherwise the base record's, and `undefined` if neither has it. |
| `Store.PutIsMerge` | src/components/steps/PersonalInfo.jsx:40 | `{...prev, [name]: value}` is the shallow merge of a one-key record. |
| `Store.PutsCommute` | src/components/steps/PersonalInfo.jsx:38-47 | Two spread updates to different keys commute, and both values are kept. So the personal-information and price-summary change handlers leave the same record whichever of two fields is edited first. This does not hold in the cargo step: a catalog selection and a weight edit do not commute, because the auto-fill overwrites `cargoWeight` (src/components/steps/Details.jsx:112-117). |
| `Store.Truthy` | src/components/steps/Details.jsx:79 | `!value` holds exactly for `undefined`, the empty string and 0 (the falsy values a record can hold). |
| `Store.ParseValue` | src/components/steps/Details.jsx:73 | `parseFloat` of a stored value: a string goes through the runtime parser, a number is itself, and `undefined` is NaN. |
| `Text.Trim` | src/components/steps/PersonalInfo.jsx:11 | `trim()` cuts the leading whitespace, then the trailing whitespace. What is left neither starts nor ends with whitespace, and it is empty exactly when every character is ECMAScript whitespace. |
| `Text.TrimEmptyIffAllSpace` | src/components/steps/PersonalInfo.jsx:11 | `!value.trim()` holds exactly when every character is ECMAScript whitespace, including for the empty string. |
| `Text.NatToStringRoundTrip` | src/components/steps/Details.jsx:84 | The decimal rendering of the maximum weight in the message reads back as that number. |
| `PersonalInfo.ValidateField` | src/components/steps/PersonalInfo.jsx:8-36 | `fullname`: blank gives "Name is required". Otherwise an untrimmed length below 2 gives "Name must be at least 2 characters". Otherwise it is valid exactly when every character is an ASCII letter or whitespace. `email`: empty gives "Email is required". Otherwise it is valid exactly when it matches the email pattern. `phoneNumber`: empty gives "Phone number is required". Otherwise it is valid exactly when it matches the phone pattern. Any other name gives "". |
| `PersonalInfo.EmailFormatIffPattern` | src/components/steps/PersonalInfo.jsx:21-22 | The structural email check agrees with the regular expression. The check is: the first `@` is not at the start, neither side of it has whitespace or another `@`, and a dot stands strictly inside the domain. |
| `PersonalInfo.ComposedEmailMatches` | src/components/steps/PersonalInfo.jsx:21-22 | Any a+"@"+b+"."+c with a, b, c non-empty and free of whitespace and `@` matches the email pattern. |
| `PersonalInfo.PhoneFormatIffPattern` | src/components/steps/PersonalInfo.jsx:28-29 | The phone check agrees with `^\+?[\d\s-]{10,}$`: an optional single `+`, then at least ten digits, whitespace or hyphens. |
| `PersonalInfo.HandleChange` | src/components/steps/PersonalInfo.jsx:38-47 | A change writes only `record[name]` (the new value) and `errors[name]` (its message). Everything else is unchanged. |
| `PersonalInfo.HandleBlur` | src/components/steps/PersonalInfo.jsx:49-56 | A blur leaves the record unchanged and writes only `errors[name]`. |
| `PersonalInfo.ValidationIgnoresRecord` | src/components/steps/PersonalInfo.jsx:38-56 | The message depends on (name, value) alone. Forms with different records and errors get the same message. |
| `PersonalInfo.UntrimmedLengthCounts` | src/components/steps/PersonalInfo.jsx:10-17 | Length is counted before trimming. " a" is a valid name, "a" is too short, and "  " is required. |
| `PersonalInfo.EmailScenario` | src/components/steps/PersonalInfo.jsx:19-24 | "bad" gives "Invalid email format", and "a@b.com" is valid. |
| `Details.CatalogWellFormed` | src/components/steps/Details.jsx:15-32 | The catalog has six entries with distinct non-empty ids. Each has a positive maximum and a base weight no greater than it. |
| `Details.FindIn` | src/components/steps/Details.jsx:74-76 | `find` returns the first entry whose id is strictly equal to the value, and returns nothing exactly when no id matches. |
| `Details.FindItem` | src/components/steps/Details.jsx:74-76 | A catalog lookup finds an entry whose id equals the value, and finds nothing exactly when no id equals it. A found entry has a non-empty id and a positive maximum of at least its base weight. |
| `Details.MaxWeightMessage` | src/components/steps/Details.jsx:84 | The message is "Maximum weight for NAME is ", then the item's maximum in decimal digits with no leading zero (digits that read back as that number), then "kg". |
| `Details.FindItemById` | src/components/steps/Details.jsx:110 | Since ids are distinct, looking up an entry's own id finds that entry. |
| `Details.ValidateWeight` | src/components/steps/Details.jsx:72-85 | Falsy gives "Weight is required". NaN passes. ≤ 0 gives "Weight must be greater than 0". Above the snapshot item's maximum gives the max-weight message naming that item. With no catalog item in the snapshot there is no upper bound. |
| `Details.ValidateAddressShape` | src/components/steps/Details.jsx:42-56 | The shared address checks run in order. Blank after trimming gives the "required" message. Otherwise fewer than ten characters, counted before trimming, gives "Please enter a complete address". Otherwise "". |
| `Details.ValidateDate` | src/components/steps/Details.jsx:58-70 | Empty gives "Delivery date is required". An invalid date passes. A date before today is "in the past", one after the latest allowed date is "more than 3 months in advance", and anything in between is accepted. |
| `Details.ValidateField` | src/components/steps/Details.jsx:34-95 | Item and type reject exactly the empty value. For addresses the order is blank, then untrimmed length < 10, then (delivery only) exact equality with the snapshot's pickup address. Date: empty, then before today, then after the maximum date; an invalid date passes. Instructions are rejected exactly above 500 characters. Any other name gives "". |
| `Details.AutoFill` | src/components/steps/Details.jsx:109-129 | The auto-fill sets `cargoWeight` to the base weight and `shippingItemName` to the name, keeps every other key of its base record, and stores the filled weight's message validated against the new record. |
| `Details.HandleChange` | src/components/steps/Details.jsx:97-131 | A non-catalog change writes only `record[name]` and `errors[name]`, validated against the updated record. A catalog selection keeps the old `shippingItem`, records "" for it, and then performs the auto-fill from the pre-change record. |
| `Details.HandleBlur` | src/components/steps/Details.jsx:133-140 | A blur leaves the record unchanged and writes only `errors[name]`, validated against the current record. |
| `Details.SelectingOtherRequiresWeight` | src/components/steps/Details.jsx:109-128 | Choosing "Other" fills a weight of 0, which is falsy, so the weight error is "Weight is required". |
| `Details.ShortEqualAddressGetsLengthMessage` | src/components/steps/Details.jsx:49-56 | A delivery address equal to the pickup address but shorter than 10 characters gets the length message. |
| `Details.ElectronicsOverweight` | src/components/steps/Details.jsx:72-85 | With Electronics in the snapshot, 1500 kg gives "Maximum weight for Electronics is 1000kg". |
| `Details.SelectionNeverStored` | src/components/steps/Details.jsx:97-140 | Start from a form with no catalog id in `shippingItem` and no stored weight error other than "", "Weight is required" or "Weight must be greater than 0" (the empty form meets both). Then no sequence of change and blur events stores one, and the max-weight message never appears. |
| `Details.OverweightAfterSelectionAsWritten` | src/components/steps/Details.jsx:109-117 | As written, selecting Electronics and then entering 1500 kg gives no weight error. |
| `Details.HandleChangeIntended` | src/components/steps/Details.jsx:112-117 | The corrected auto-fill keeps the selected id alongside the filled weight and name, and every other field is unchanged. The errors gain exactly `shippingItem` (always "") and `cargoWeight`. The filled weight is accepted when positive and gets "Weight is required" for the zero-weight "Other" entry. Every other stored error is kept. Any change that is not a catalog selection behaves as the code does. |
| `Details.SelectIntended` | src/components/steps/Details.jsx:112-117 | The corrected selection path stores the id with an empty error. It fills the weight and item name and leaves every other field and every other stored error as it was. |
| `Details.SelectIntendedWeightError` | src/components/steps/Details.jsx:112-117 | On the corrected selection path the filled weight is accepted when positive, and the zero-weight "Other" entry gets "Weight is required". |
| `Details.OverweightAfterSelectionIntended` | src/components/steps/Details.jsx:112-117 | With the corrected auto-fill, selecting Electronics and then entering 1500 kg gives the Electronics max-weight message. |
| `Payment.Round` | src/components/steps/Payment.jsx:73-76 | `Math.round` gives the nearest integer, with halves going up. |
| `Payment.NearestIntUnique` | src/components/steps/Payment.jsx:73-76 | The nearest integer is unique, so it fixes the rounded value. |
| `Payment.RoundShift` | src/components/steps/Payment.jsx:76 | Adding a whole number before rounding adds it after rounding. |
| `Payment.ValidateDimension` | src/components/steps/Payment.jsx:20-29 | Checks run in order: empty, then NaN, then < 0.1, then > 100. Each message carries the raw field name. The value is valid exactly when it parses into the closed range [0.1, 100]. |
| `Payment.ValidateField` | src/components/steps/Payment.jsx:31-42 | length, width and height use the dimension rule. `paymentMethod` is rejected exactly when empty. Any other name gives "". |
| `Payment.HandleDimensionChange` | src/components/steps/Payment.jsx:45-51 | A dimension change writes only `record[name]` and `errors[name]`. |
| `Payment.HandlePaymentMethodChange` | src/components/steps/Payment.jsx:203-207 | The method change writes only `paymentMethod` in record and errors. The stored error is the step's rule for that field: "Please select a payment method" exactly when the value is empty, "" otherwise. |
| `Payment.PricingInput` | src/components/steps/Payment.jsx:58-61 | A missing or falsy entry is priced as 0. Otherwise the entry is parsed. |
| `Payment.PriceOf` | src/components/steps/Payment.jsx:67-77 | Weight price and volume price are each the nearest integer to their exact amounts. The total is the nearest integer to the exact sum plus the fee. |
| `Payment.FeeFor` | src/components/steps/Payment.jsx:69-70 | The fee is 500 exactly for "Hazardous Materials", and 0 otherwise. |
| `Payment.ComputePricing` | src/components/steps/Payment.jsx:54-79 | Pricing is the bare 0 exactly when one of the four inputs is NaN. Otherwise it is the breakdown of the parsed inputs and the record's fee, whatever the validity of the dimensions. |
| `Payment.PricingDependsOnlyOnInputs` | src/components/steps/Payment.jsx:80-86 | Records that agree on the five listed dependencies get the same price. |
| `Payment.FeeAddsExactly` | src/components/steps/Payment.jsx:72-77 | A fee added before the single rounding reaches the total unchanged, and the rounded parts stay the same. |
| `Payment.HazardousAddsExactlyFee` | src/components/steps/Payment.jsx:69-77 | A hazardous shipment totals exactly 500 more than the same shipment of any other type. |
| `Payment.WorkedExample` | src/components/steps/Payment.jsx:54-79 | 10 kg in a 2×2×2 box gives 50/80/0/130 as general cargo and 50/80/500/630 as hazardous. |
| `Payment.OutOfRangeStillPriced` | src/components/steps/Payment.jsx:54-79 | A 200 m length is reported as exceeding 100m and is still priced (volume 8000). |
| `Payment.WriteBack` | src/components/steps/Payment.jsx:89-91 | Only `totalPrice` changes. It becomes the breakdown's total, or `undefined` for the bare 0. |
| `Payment.WriteBackSettles` | src/components/steps/Payment.jsx:80-91 | The write-back does not change the price, and writing back twice is the same as writing back once. |
| `Payment.WriteBackIntended` | src/components/steps/Payment.jsx:89-91 | The corrected write-back always stores a number. It stores 0 when an input is NaN and otherwise agrees with the write-back as written. |
| `Payment.UnparseableWeightLeavesTotalUndefined` | src/components/steps/Payment.jsx:63-65 | As written, an unparseable weight leaves `totalPrice` undefined. The corrected write-back stores 0. |
| `App.Initial` | src/App.jsx:13-14 | The session starts on the personal-information screen with an empty record. |
| `App.DisplayStep` | src/App.jsx:24-37 | Steps 1..4 map to the four screens in order, and every other index maps to nothing. |
| `App.HandleClick` | src/App.jsx:39-44 | "next" proposes step+1 and any other direction proposes step−1. The proposal is taken when 0 < new < 4, and otherwise the step is unchanged. So the index moves by at most one and 1..3 is preserved. |
| `App.ShowsControl` | src/App.jsx:62-68 | The navigation control is hidden exactly when the current step shows the final screen. |
| `App.Click` | src/App.jsx:39-44 | A click changes only the step index, never the record. |
| `App.RunFrom` | src/App.jsx:39-44 | After n clicks the index has moved by at most n. |
| `App.RunFromStaysInRange` | src/App.jsx:43 | From any step in 1..3, every click sequence stays in 1..3. |
| `App.ReachableIff` | src/App.jsx:13-43 | A step is reachable from the initial state exactly when it is 1, 2 or 3, so "Complete" is never entered. |
| `App.ReachableStepsShowScreenAndControl` | src/App.jsx:24-68 | Every reachable step shows a non-null screen other than the final one, and the navigation control stays visible. |
| `App.BoundaryClicksAreNoOps` | src/App.jsx:43 | "next" at step 3 and "back" at step 1 leave the state unchanged. |
| `App.ClickIgnoresRecord` | src/App.jsx:39-44 | Navigation is ungated: two states at the same step move to the same step, whatever their records hold. |
| `App.HandleClickIntended` | src/App.jsx:43 | With the bound `newStep <= steps.length`: "next" moves to step + 1 and any other direction to step - 1 when the result lies in 1..4, and otherwise the step is unchanged. So "next" at step 3 enters step 4 and "back" at step 4 returns to 3. The index stays in 1..4, and the only difference from the code is entering step 4. |
| `App.TerminalReachableIntended` | src/App.jsx:43 | With the corrected bound, three "next" clicks reach "Complete", and there the control is hidden. |
| `App.RunIntendedStaysInRange` | src/App.jsx:43 | With the corrected bound, every click sequence from 1..4 stays in 1..4. |

## Left out

- Number parsing: `parseFloat` is the parameter `Env.parseNumber`, and NaN is `None`. Its own grammar (leading whitespace, exponents, trailing garbage) is not modelled.
- Date handling: `new Date(value)`, the current date, and `setMonth(+3)` with its time-zone and month-length rules are the parameters `Env.parseDate`, `Env.today` and `Env.maxDate`. The model keeps only the order of the checks.
- Floating point: prices use exact reals. IEEE-754 rounding effects (for example `Math.round(0.49999999999999994)`) are not modelled.
- `Num` values: they hold finite reals only. NaN and Infinity are never stored, because the only numbers the core stores are catalog weights and computed totals.
- String length: JavaScript counts UTF-16 code units. The model counts characters, so the two differ for characters outside the Basic Multilingual Plane.
- React scheduling: each handler's `setState` calls are applied in order. The render-time `userData` is taken to equal the updater's `prev`. The memo/effect re-run of pricing is the explicit `Payment.WriteBack`, and its dependency list is justified by `Payment.PricingDependsOnlyOnInputs`.
- Non-string values: `value.trim()` or `value.length` on one is not modelled, because input events deliver strings and the only number handed to a validator goes to the weight rule.
- `finalData` (src/App.jsx:15) is never read or written.
- The `cargoTypes` list (src/components/steps/Details.jsx:8-13) only fills a drop-down, and `PRICING_CONSTANTS.maxWeight` is read by no rule. Both appear as constants without a member.
- Not modelled as logic: the header, the final screen's submit (console output and an alert), all markup, and the `showPriceDetails` toggle.
- The stepper context, stepper display, stepper control and footer are not part of this model. Since the control's direction strings are not visible, `App.HandleClick` accepts any string.

## Findings

| source | as written | input that shows it | evidently intended | confidence | as-written member | corrected member |
|---|---|---|---|---|---|---|
| src/components/steps/Details.jsx:112-117 | The auto-fill record spreads the pre-change `userData` and replaces the whole record, dropping the `shippingItem` just chosen. | Select "electronics", then enter 1500 kg: no weight error, and the item drop-down shows nothing selected. | Build the auto-fill on the updated record so the selection is kept and the max-weight rule applies. | high; not executed | `Details.OverweightAfterSelectionAsWritten` (with `Details.HandleChange`, `Details.SelectionNeverStored`) | `Details.HandleChangeIntended` (with `Details.OverweightAfterSelectionIntended`) |
| src/components/steps/Payment.jsx:63-65 | On a NaN input, pricing returns the bare number 0, so `pricing.total` is undefined and `totalPrice` is written as undefined. | A stored weight or dimension that `parseFloat` rejects. The form's own inputs are `type="number"` (src/components/steps/Details.jsx:257, src/components/steps/Payment.jsx:116), so they deliver "" or a number, and the auto-filled weight is a number. The branch is reached only when a non-numeric value enters the record some other way. | A zero breakdown, so `totalPrice` is 0. | low; not executed | `Payment.UnparseableWeightLeavesTotalUndefined` (with `Payment.WriteBack`) | `Payment.WriteBackIntended` |
| src/App.jsx:43 | The guard `newStep < steps.length` rejects step 4, so the "Complete" screen is never shown and the control never disappears. | "next" at step 3. | `newStep <= steps.length`. | medium; not executed | `App.ReachableIff` (with `App.HandleClick`) | `App.HandleClickIntended` (with `App.TerminalReachableIntended`) |

=== FILE: app.dfy ===
/** The wizard's navigation: a 1-based step index moved one step at a time,
    the step-to-screen map, and the visibility of the navigation control.
    Transitions consult no validation result. */
module App {
  import opened Store

  const Steps: seq<string> := ["Personal Information", "Cargo Description", "Price Summary", "Complete"]

  /** The screens `displayStep` can show. */
  datatype Screen = PersonalInfoScreen | DetailsScreen | PaymentScreen | FinalScreen

  /** The session state: the step index and the shared booking record. */
  datatype AppState = AppState(currentStep: int, userData: Record)

  /** A session starts on the first screen with nothing recorded. */
  function Initial(): (s: AppState)
    ensures DisplayStep(s.currentStep) == Some(PersonalInfoScreen)
    ensures s.userData == map[]
  {
    AppState(1, map[])
  }

  /** `displayStep`: steps 1 to 4 name the four screens in order, anything
      else shows nothing. */
  function DisplayStep(step: int): (screen: Option<Screen>)
    ensures screen.Some? <==> 1 <= step <= |Steps|
    ensures step == 1 <==> screen == Some(PersonalInfoScreen)
    ensures step == 2 <==> screen == Some(DetailsScreen)
    ensures step == 3 <==> screen == Some(PaymentScreen)
    ensures step == 4 <==> screen == Some(FinalScreen)
  {
    match step
    case 1 => Some(PersonalInfoScreen)
    case 2 => Some(DetailsScreen)
    case 3 => Some(PaymentScreen)
    case 4 => Some(FinalScreen)
    case _ => None
  }

  /** The navigation control is rendered unless the current step is the
      last: it is hidden exactly on the final screen. */
  function ShowsControl(step: int): (shown: bool)
    ensures !shown <==> DisplayStep(step) == Some(FinalScreen)
  {
    step != |Steps|
  }

  /** `handleClick`: "next" proposes the following step, any other direction
      the previous one; the proposal is taken only when it lies strictly
      between 0 and the number of steps, so the index moves by at most one
      and never leaves 1..3 once inside it. */
  function HandleClick(step: int, direction: string): (next: int)
    ensures direction == "next" && step + 1 < |Steps| && step + 1 > 0 ==> next == step + 1
    ensures direction != "next" && 0 < step - 1 < |Steps| ==> next == step - 1
    ensures direction == "next" && !(0 < step + 1 < |Steps|) ==> next == step
    ensures direction != "next" && !(0 < step - 1 < |Steps|) ==> next == step
    ensures next == step || next == step + 1 || next == step - 1
    ensures next != step ==> 0 < next < |Steps|
    ensures 1 <= step < |Steps| ==> 1 <= next < |Steps|
  {
    var newStep := if direction == "next" then step + 1 else step - 1;
    if 0 < newStep && newStep < |Steps| then newStep else step
  }

  /** A click moves only the step index; the record is untouched. */
  function Click(s: AppState, direction: string): (t: AppState)
    ensures t.userData == s.userData
    ensures t.currentStep == HandleClick(s.currentStep, direction)
  {
    AppState(HandleClick(s.currentStep, direction), s.userData)
  }

  /** The step reached from `step` by a sequence of clicks. */
  function RunFrom(step: int, directions: seq<string>): (last: int)
    ensures step - |directions| <= last <= step + |directions|
    decreases |directions|
  {
    if directions == [] then step
    else RunFrom(HandleClick(step, directions[0]), directions[1..])
  }

  /** The step reached from the initial state. */
  function Run(directions: seq<string>): int
  {
    RunFrom(Initial().currentStep, directions)
  }

  ghost predicate Reachable(step: int)
  {
    exists directions :: Run(directions) == step
  }

  /** Clicks keep the index inside 1..3. */
  lemma {:induction false} RunFromStaysInRange(step: int, directions: seq<string>)
    requires 1 <= step <= 3
    ensures 1 <= RunFrom(step, directions) <= 3
    decreases |directions|
  {
    if directions != [] {
      RunFromStaysInRange(HandleClick(step, directions[0]), directions[1..]);
    }
  }

  /** The reachable steps are exactly 1, 2 and 3: "Complete" is never entered. */
  lemma ReachableIff(step: int)
    ensures Reachable(step) <==> 1 <= step <= 3
  {
    if Reachable(step) {
      var directions :| Run(directions) == step;
      RunFromStaysInRange(1, directions);
    }
    if step == 1 {
      assert Run([]) == 1;
    } else if step == 2 {
      assert Run(["next"]) == 2;
    } else if step == 3 {
      assert Run(["next", "next"]) == 3;
    }
  }

  /** Every reachable step shows a screen other than the final one, and the
      navigation control stays visible. */
  lemma ReachableStepsShowScreenAndControl(directions: seq<string>)
    ensures DisplayStep(Run(directions)).Some?
    ensures DisplayStep(Run(directions)) != Some(FinalScreen)
    ensures ShowsControl(Run(directions))
  {
    RunFromStaysInRange(1, directions);
  }

  /** "next" on the last reachable step and "back" on the first are no-ops. */
  lemma BoundaryClicksAreNoOps(s: AppState)
    ensures s.currentStep == 3 ==> Click(s, "next") == s
    ensures s.currentStep == 1 ==> Click(s, "back") == s
  {
  }

  /** Navigation is ungated: the outcome depends on the step and direction
      only, whatever the records (and whatever errors they would draw). */
  lemma ClickIgnoresRecord(s: AppState, t: AppState, direction: string)
    requires s.currentStep == t.currentStep
    ensures Click(s, direction).currentStep == Click(t, direction).currentStep
  {
  }

  // ---- Navigation as evidently intended ----

  /** The click handler with the bound `newStep <= steps.length`, which lets
      "next" on step 3 enter the terminal step 4. */
  function HandleClickIntended(step: int, direction: string): (next: int)
    ensures 1 <= step <= |Steps| ==> 1 <= next <= |Steps|
    ensures next == step || next == step + 1 || next == step - 1
    ensures next != HandleClick(step, direction) ==> next == |Steps|
    ensures direction == "next" && 0 < step + 1 <= |Steps| ==> next == step + 1
    ensures direction != "next" && 0 < step - 1 <= |Steps| ==> next == step - 1
    ensures direction == "next" && !(0 < step + 1 <= |Steps|) ==> next == step
    ensures direction != "next" && !(0 < step - 1 <= |Steps|) ==> next == step
  {
    var newStep := if direction == "next" then step + 1 else step - 1;
    if 0 < newStep && newStep <= |Steps| then newStep else step
  }

  function RunIntended(step: int, directions: seq<string>): int
    decreases |directions|
  {
    if directions == [] then step
    else RunIntended(HandleClickIntended(step, directions[0]), directions[1..])
  }

  /** With the intended bound the terminal step is reached by three "next"
      clicks, and there the control disappears. */
  lemma TerminalReachableIntended()
    ensures RunIntended(1, ["next", "next", "next"]) == |Steps|
    ensures DisplayStep(RunIntended(1, ["next", "next", "next"])) == Some(FinalScreen)
    ensures !ShowsControl(RunIntended(1, ["next", "next", "next"]))
  {
    assert HandleClickIntended(3, "next") == 4;
    assert RunIntended(1, ["next", "next", "next"]) == RunIntended(2, ["next", "next"]);
    assert RunIntended(2, ["next", "next"]) == RunIntended(3, ["next"]);
  }

  /** With the intended bound the index still stays within 1..4. */
  lemma {:induction false} RunIntendedStaysInRange(step: int, directions: seq<string>)
    requires 1 <= step <= |Steps|
    ensures 1 <= RunIntended(step, directions) <= |Steps|
    decreases |directions|
  {
    if directions != [] {
      RunIntendedStaysInRange(HandleClickIntended(step, directions[0]), directions[1..]);
    }
  }
}

=== FILE: details.dfy ===
/** The cargo-description step: the shipping-item catalog, the field
    validators (two of which read a snapshot of the whole record), and the
    change / blur handlers, including the auto-fill that follows the choice
    of a shipping item. */
module Details {
  import opened Store
  import opened Text

  const CargoTypes: seq<string> :=
    ["General Cargo", "Hazardous Materials", "Refrigerated", "Oversized"]

  datatype ShippingItem = ShippingItem(id: string, name: string, baseWeight: nat, maxWeight: nat)

  const ShippingItems: seq<ShippingItem> := [
    ShippingItem("electronics", "Electronics", 5, 1000),
    ShippingItem("furniture", "Furniture", 50, 5000),
    ShippingItem("machinery", "Industrial Machinery", 100, 10000),
    ShippingItem("perishables", "Perishable Goods", 10, 2000),
    ShippingItem("documents", "Documents", 1, 50),
    ShippingItem("other", "Other", 0, 10000)
  ]

  /** The catalog: six entries with distinct ids, a positive maximum, and a
      base weight that never exceeds the maximum. */
  lemma CatalogWellFormed()
    ensures |ShippingItems| == 6
    ensures forall k :: 0 <= k < |ShippingItems| ==> ShippingItems[k].id != ""
    ensures forall a, b :: 0 <= a < b < |ShippingItems| ==> ShippingItems[a].id != ShippingItems[b].id
    ensures forall k :: 0 <= k < |ShippingItems| ==>
      0 < ShippingItems[k].maxWeight && ShippingItems[k].baseWeight <= ShippingItems[k].maxWeight
  {
  }

  /** `items.find(item => item.id === v)`: the first entry whose id is
      strictly equal to `v`, if any. */
  function FindIn(items: seq<ShippingItem>, v: Value): (r: Option<ShippingItem>)
    ensures r.None? <==> forall k :: 0 <= k < |items| ==> Str(items[k].id) != v
    ensures r.Some? ==> (Str(r.value.id) == v &&
      exists k :: 0 <= k < |items| && items[k] == r.value &&
        forall j :: 0 <= j < k ==> Str(items[j].id) != v)
  {
    if items == [] then None
    else if Str(items[0].id) == v then Some(items[0])
    else
      var r := FindIn(items[1..], v);
      assert forall k :: 1 <= k < |items| ==> items[k] == items[1..][k - 1];
      r
  }

  function FindItem(v: Value): (r: Option<ShippingItem>)
    ensures r.Some? ==> (v == Str(r.value.id) &&
      exists k :: 0 <= k < |ShippingItems| && ShippingItems[k] == r.value)
    ensures r.None? <==> forall k :: 0 <= k < |ShippingItems| ==> Str(ShippingItems[k].id) != v
    ensures r.Some? ==> r.value.id != "" && 0 < r.value.maxWeight && r.value.baseWeight <= r.value.maxWeight
  {
    CatalogWellFormed();
    FindIn(ShippingItems, v)
  }

  /** Because ids are distinct, looking up an entry's own id finds that entry. */
  lemma FindItemById(k: nat)
    requires k < |ShippingItems|
    ensures FindItem(Str(ShippingItems[k].id)) == Some(ShippingItems[k])
  {
    CatalogWellFormed();
  }

  /** The template literal `Maximum weight for ${name} is ${maxWeight}kg`:
      the fixed text around the item's name, then the maximum in decimal
      digits without a leading zero that read back as that number, then
      the unit. */
  function MaxWeightMessage(item: ShippingItem): (msg: string)
    ensures var head := "Maximum weight for " + item.name + " is ";
      |head| + 2 < |msg| && msg[..|head|] == head && msg[|msg| - 2..] == "kg" &&
      var digits := msg[|head|..|msg| - 2];
      (forall i :: 0 <= i < |digits| ==> IsDigit(digits[i])) && DecimalValue(digits) == item.maxWeight &&
      (digits[0] != '0' || item.maxWeight == 0)
  {
    var head := "Maximum weight for " + item.name + " is ";
    var digits := NatToString(item.maxWeight);
    NatToStringRoundTrip(item.maxWeight);
    var msg := head + digits + "kg";
    assert msg[|head|..|msg| - 2] == digits;
    msg
  }

  /** The `cargoWeight` rule, for a value that is a string (from an input
      event) or a number (from the auto-fill). An unparseable weight fails
      every comparison and so passes; with no catalog item selected in the
      snapshot there is no upper bound. */
  function ValidateWeight(env: Env, value: Value, snapshot: Record): (r: string)
    ensures !Truthy(value) ==> r == "Weight is required"
    ensures Truthy(value) && ParseValue(env, value).None? ==> r == ""
    ensures Truthy(value) && ParseValue(env, value).Some? ==>
      var w := ParseValue(env, value).value;
      var item := FindItem(Get(snapshot, "shippingItem"));
      (w <= 0.0 ==> r == "Weight must be greater than 0") &&
      (w > 0.0 && item.Some? && w > item.value.maxWeight as real ==> r == MaxWeightMessage(item.value)) &&
      (w > 0.0 && (item.None? || w <= item.value.maxWeight as real) ==> r == "")
  {
    var selected := FindItem(Get(snapshot, "shippingItem"));
    var maxWeight: nat := if selected.Some? then selected.value.maxWeight else 0;
    if !Truthy(value) then "Weight is required"
    else match ParseValue(env, value)
      case None => ""
      case Some(weight) =>
        if weight <= 0.0 then "Weight must be greater than 0"
        else if maxWeight != 0 && weight > maxWeight as real then MaxWeightMessage(selected.value)
        else ""
  }

  /** The fields this step validates. */
  predicate IsDetailsField(name: string)
  {
    name in {"shippingItem", "cargoType", "pickupAddress", "deliveryAddress",
             "deliveryDate", "cargoWeight", "specialInstructions"}
  }

  /** The shared address checks, in order: blank (after trimming), then
      fewer than ten characters (before trimming). */
  function ValidateAddressShape(value: string, missing: string): (r: string)
    ensures AllSpace(value) ==> r == missing
    ensures !AllSpace(value) && |value| < 10 ==> r == "Please enter a complete address"
    ensures !AllSpace(value) && |value| >= 10 ==> r == ""
  {
    if Trim(value) == [] then missing
    else if |value| < 10 then "Please enter a complete address"
    else ""
  }

  /** The delivery-date rule: an invalid date passes, and a valid one must
      lie between today and the latest allowed date, both inclusive. */
  function ValidateDate(env: Env, value: string): (r: string)
    ensures value == "" ==> r == "Delivery date is required"
    ensures value != "" && env.parseDate(value).None? ==> r == ""
    ensures value != "" && env.parseDate(value).Some? ==>
      var d := env.parseDate(value).value;
      (d < env.today ==> r == "Delivery date cannot be in the past") &&
      (env.today <= d && d > env.maxDate ==>
        r == "Delivery date cannot be more than 3 months in advance") &&
      (env.today <= d <= env.maxDate ==> r == "")
  {
    if value == "" then "Delivery date is required"
    else match env.parseDate(value)
      case None => ""
      case Some(selected) =>
        if selected < env.today then "Delivery date cannot be in the past"
        else if selected > env.maxDate then "Delivery date cannot be more than 3 months in advance"
        else ""
  }

  /** The error message for one field of this step; `snapshot` is the record
      the rule reads `pickupAddress` and `shippingItem` from. */
  function ValidateField(env: Env, name: string, value: string, snapshot: Record): (r: string)
    ensures name == "shippingItem" ==>
      (r != "" <==> value == "") && (r != "" ==> r == "Please select a shipping item")
    ensures name == "cargoType" ==>
      (r != "" <==> value == "") && (r != "" ==> r == "Please select a cargo type")
    ensures name == "pickupAddress" ==>
      (AllSpace(value) ==> r == "Pickup address is required") &&
      (!AllSpace(value) && |value| < 10 ==> r == "Please enter a complete address") &&
      (!AllSpace(value) && |value| >= 10 ==> r == "")
    ensures name == "deliveryAddress" ==>
      (AllSpace(value) ==> r == "Delivery address is required") &&
      (!AllSpace(value) && |value| < 10 ==> r == "Please enter a complete address") &&
      (!AllSpace(value) && |value| >= 10 ==>
        (r != "" <==> Get(snapshot, "pickupAddress") == Str(value)) &&
        (r != "" ==> r == "Delivery address must be different from pickup address"))
    ensures name == "deliveryDate" ==>
      (value == "" ==> r == "Delivery date is required") &&
      (value != "" && env.parseDate(value).None? ==> r == "") &&
      (value != "" && env.parseDate(value).Some? ==>
        var d := env.parseDate(value).value;
        (d < env.today ==> r == "Delivery date cannot be in the past") &&
        (env.today <= d && d > env.maxDate ==>
          r == "Delivery date cannot be more than 3 months in advance") &&
        (env.today <= d <= env.maxDate ==> r == ""))
    ensures name == "cargoWeight" ==> r == ValidateWeight(env, Str(value), snapshot)
    ensures name == "specialInstructions" ==>
      (r != "" <==> |value| > 500) && (r != "" ==> r == "Special instructions cannot exceed 500 characters")
    ensures !IsDetailsField(name) ==> r == ""
  {
    match name
    case "shippingItem" => if value == "" then "Please select a shipping item" else ""
    case "cargoType" => if value == "" then "Please select a cargo type" else ""
    case "pickupAddress" => ValidateAddressShape(value, "Pickup address is required")
    case "deliveryAddress" =>
      var shape := ValidateAddressShape(value, "Delivery address is required");
      if shape != "" then shape
      else if Str(value) == Get(snapshot, "pickupAddress") then
        "Delivery address must be different from pickup address"
      else ""
    case "deliveryDate" => ValidateDate(env, value)
    case "cargoWeight" => ValidateWeight(env, Str(value), snapshot)
    case "specialInstructions" =>
      if |value| > 500 then "Special instructions cannot exceed 500 characters" else ""
    case _ => ""
  }

  /** The auto-fill of a catalog selection, as written: the record becomes
      `base.record` (the pre-change record) plus the item's base weight and
      name, and the filled weight is validated against that new record. */
  function AutoFill(env: Env, base: Form, item: ShippingItem): (r: Form)
    ensures Get(r.record, "cargoWeight") == Num(item.baseWeight as real)
    ensures Get(r.record, "shippingItemName") == Str(item.name)
    ensures forall k :: k != "cargoWeight" && k != "shippingItemName" ==> Get(r.record, k) == Get(base.record, k)
    ensures SameExcept(r.errors, base.errors, "cargoWeight") && "cargoWeight" in r.errors
    ensures r.errors.Keys == base.errors.Keys + {"cargoWeight"}
    ensures r.errors["cargoWeight"] == ValidateWeight(env, Num(item.baseWeight as real), r.record)
  {
    var filled := map["cargoWeight" := Num(item.baseWeight as real), "shippingItemName" := Str(item.name)];
    assert filled.Keys == {"cargoWeight", "shippingItemName"};
    var newData := Merge(base.record, filled);
    GetMerge(base.record, filled);
    Form(newData, Put(base.errors, "cargoWeight", ValidateWeight(env, Num(item.baseWeight as real), newData)))
  }

  /** A change event as written. The record gets `name := value` and the
      field is validated against that updated record. When the value is a
      catalog id, the record is then replaced by the pre-change record plus
      the auto-filled weight and item name, so the selection itself is not
      kept, and the filled weight is validated against that replacement. */
  function HandleChange(env: Env, f: Form, name: string, value: string): (r: Form)
    ensures (name != "shippingItem" || FindItem(Str(value)).None?) ==>
      SameExcept(r.record, f.record, name) && Get(r.record, name) == Str(value) &&
      SameExcept(r.errors, f.errors, name) && name in r.errors &&
      r.errors[name] == ValidateField(env, name, value, Put(f.record, name, Str(value)))
    ensures name == "shippingItem" && FindItem(Str(value)).Some? ==>
      Get(r.record, "shippingItem") == Get(f.record, "shippingItem") &&
      r == AutoFill(env, Form(f.record, Put(f.errors, "shippingItem", "")), FindItem(Str(value)).value)
  {
    var updated := Put(f.record, name, Str(value));
    var errors := Put(f.errors, name, ValidateField(env, name, value, updated));
    var selected := if name == "shippingItem" then FindItem(Str(value)) else None;
    match selected
    case None => Form(updated, errors)
    case Some(item) => AutoFill(env, Form(f.record, errors), item)
  }

  /** A blur event: the record is untouched and only `errors[name]` is
      written, validated against the current record. */
  function HandleBlur(env: Env, f: Form, name: string, value: string): (r: Form)
    ensures r.record == f.record
    ensures SameExcept(r.errors, f.errors, name) && name in r.errors
    ensures r.errors[name] == ValidateField(env, name, value, f.record)
  {
    Form(f.record, Put(f.errors, name, ValidateField(env, name, value, f.record)))
  }

  /** Choosing "Other" auto-fills a weight of 0, which is falsy, so the
      weight error becomes "Weight is required". */
  lemma SelectingOtherRequiresWeight(env: Env, f: Form)
    ensures HandleChange(env, f, "shippingItem", "other").errors["cargoWeight"] == "Weight is required"
    ensures Get(HandleChange(env, f, "shippingItem", "other").record, "cargoWeight") == Num(0.0)
  {
    FindItemById(5);
  }

  /** The address checks run in order: a delivery address equal to the
      pickup address but shorter than ten characters gets the length
      message, not the "must be different" one. */
  lemma ShortEqualAddressGetsLengthMessage(env: Env, snapshot: Record)
    requires Get(snapshot, "pickupAddress") == Str("Lagos")
    ensures ValidateField(env, "deliveryAddress", "Lagos", snapshot) == "Please enter a complete address"
  {
    assert !AllSpace("Lagos") by { assert !IsSpace("Lagos"[0]); }
  }

  /** With a catalog item in the snapshot, a weight above its maximum is
      reported with the item's name and maximum: 1500 kg of Electronics. */
  lemma ElectronicsOverweight(env: Env, snapshot: Record)
    requires Get(snapshot, "shippingItem") == Str("electronics")
    requires env.parseNumber("1500") == Some(1500.0)
    ensures ValidateField(env, "cargoWeight", "1500", snapshot) == "Maximum weight for Electronics is 1000kg"
  {
    FindItemById(0);
    assert Truthy(Str("1500"));
    assert ValidateWeight(env, Str("1500"), snapshot) == MaxWeightMessage(ShippingItems[0]);
    ElectronicsMessage();
  }

  lemma ElectronicsMessage()
    ensures MaxWeightMessage(ShippingItems[0]) == "Maximum weight for Electronics is 1000kg"
  {
    var item := ShippingItems[0];
    assert item.name == "Electronics" && item.maxWeight == 1000;
    ThousandRendered();
    assert MaxWeightMessage(item) == "Maximum weight for " + "Electronics" + " is " + "1000" + "kg";
    JoinedElectronicsText();
  }

  lemma JoinedElectronicsText()
    ensures "Maximum weight for " + "Electronics" + " is " + "1000" + "kg" ==
      "Maximum weight for Electronics is 1000kg"
  {
  }

  lemma ThousandRendered()
    ensures NatToString(1000) == "1000"
  {
    assert NatToString(1) == "1";
    assert NatToString(10) == "1" + "0";
    assert NatToString(100) == "10" + "0";
    assert NatToString(1000) == "100" + "0";
  }

  // ---- A Details session: the shipping-item selection is never stored ----

  datatype Event = Change(name: string, value: string) | Blur(name: string, value: string)

  function Apply(env: Env, f: Form, e: Event): Form
  {
    match e
    case Change(name, value) => HandleChange(env, f, name, value)
    case Blur(name, value) => HandleBlur(env, f, name, value)
  }

  function ApplyAll(env: Env, f: Form, events: seq<Event>): Form
    decreases |events|
  {
    if events == [] then f else ApplyAll(env, Apply(env, f, events[0]), events[1..])
  }

  /** The record names no catalog item, and no max-weight message is on show. */
  predicate NoItemSelected(f: Form)
  {
    FindItem(Get(f.record, "shippingItem")).None? &&
    ("cargoWeight" in f.errors ==>
      f.errors["cargoWeight"] in {"", "Weight is required", "Weight must be greater than 0"})
  }

  /** With no catalog item in the snapshot the weight rule can only answer
      one of its first three messages. */
  lemma WeightWithoutItem(env: Env, value: Value, snapshot: Record)
    requires FindItem(Get(snapshot, "shippingItem")).None?
    ensures ValidateWeight(env, value, snapshot) in {"", "Weight is required", "Weight must be greater than 0"}
  {
  }

  /** One event keeps `NoItemSelected`: a catalog id chosen for
      `shippingItem` is overwritten by the auto-fill, and any other value
      written there is not an id. */
  lemma ApplyKeepsNoItemSelected(env: Env, f: Form, e: Event)
    requires NoItemSelected(f)
    ensures NoItemSelected(Apply(env, f, e))
  {
    match e
    case Change(name, value) =>
      if name == "shippingItem" && FindItem(Str(value)).Some? {
        SelectionKeepsNoItemSelected(env, f, value);
      } else {
        PlainChangeKeepsNoItemSelected(env, f, name, value);
      }
    case Blur(name, value) =>
      if name == "cargoWeight" {
        WeightWithoutItem(env, Str(value), f.record);
      }
  }

  /** Choosing a catalog item: the auto-fill restores the old selection. */
  lemma SelectionKeepsNoItemSelected(env: Env, f: Form, value: string)
    requires NoItemSelected(f) && FindItem(Str(value)).Some?
    ensures NoItemSelected(HandleChange(env, f, "shippingItem", value))
  {
    var g := HandleChange(env, f, "shippingItem", value);
    assert Get(g.record, "shippingItem") == Get(f.record, "shippingItem");
    WeightWithoutItem(env, Num(FindItem(Str(value)).value.baseWeight as real), g.record);
  }

  /** Any other change: a value written to `shippingItem` is not an id, and
      a weight is validated against a record that names no item. */
  lemma PlainChangeKeepsNoItemSelected(env: Env, f: Form, name: string, value: string)
    requires NoItemSelected(f)
    requires name != "shippingItem" || FindItem(Str(value)).None?
    ensures NoItemSelected(HandleChange(env, f, name, value))
  {
    var g := HandleChange(env, f, name, value);
    var updated := Put(f.record, name, Str(value));
    if name == "cargoWeight" {
      assert Get(updated, "shippingItem") == Get(f.record, "shippingItem");
      WeightWithoutItem(env, Str(value), updated);
    } else if name != "shippingItem" {
      assert Get(g.record, "shippingItem") == Get(f.record, "shippingItem");
      assert "cargoWeight" in g.errors <==> "cargoWeight" in f.errors;
    }
  }

  /** Starting from a record that names no catalog item (the empty record,
      in particular), no sequence of change and blur events ever stores a
      catalog id in `shippingItem`, so the max-weight message never appears. */
  lemma {:induction false} SelectionNeverStored(env: Env, f: Form, events: seq<Event>)
    requires NoItemSelected(f)
    ensures NoItemSelected(ApplyAll(env, f, events))
    decreases |events|
  {
    if events != [] {
      ApplyKeepsNoItemSelected(env, f, events[0]);
      SelectionNeverStored(env, Apply(env, f, events[0]), events[1..]);
    }
  }

  /** Selecting Electronics and then typing 1500 kg, as written: no error,
      because the selection was lost. */
  lemma OverweightAfterSelectionAsWritten(env: Env)
    requires env.parseNumber("1500") == Some(1500.0)
    ensures var f := HandleChange(env, Form(map[], map[]), "shippingItem", "electronics");
      HandleChange(env, f, "cargoWeight", "1500").errors["cargoWeight"] == ""
  {
    FindItemById(0);
    var f := HandleChange(env, Form(map[], map[]), "shippingItem", "electronics");
    assert Get(f.record, "shippingItem") == Undefined;
    var updated := Put(f.record, "cargoWeight", Str("1500"));
    assert Get(updated, "shippingItem") == Undefined;
    assert FindItem(Undefined).None?;
    assert Truthy(Str("1500"));
    assert ValidateWeight(env, Str("1500"), updated) == "";
  }

  // ---- The auto-fill as evidently intended ----

  /** The change handler with the auto-fill built from the updated record,
      so the selected id is kept alongside the filled weight and name. */
  function HandleChangeIntended(env: Env, f: Form, name: string, value: string): (r: Form)
    ensures (name != "shippingItem" || FindItem(Str(value)).None?) ==> r == HandleChange(env, f, name, value)
    ensures name == "shippingItem" && FindItem(Str(value)).Some? ==>
      var item := FindItem(Str(value)).value;
      Get(r.record, "shippingItem") == Str(value) &&
      Get(r.record, "cargoWeight") == Num(item.baseWeight as real) &&
      Get(r.record, "shippingItemName") == Str(item.name) &&
      (forall k :: k != "shippingItem" && k != "cargoWeight" && k != "shippingItemName" ==>
        Get(r.record, k) == Get(f.record, k)) &&
      r.errors.Keys == f.errors.Keys + {"shippingItem", "cargoWeight"} &&
      r.errors["shippingItem"] == "" &&
      (item.baseWeight > 0 ==> r.errors["cargoWeight"] == "") &&
      (item.baseWeight == 0 ==> r.errors["cargoWeight"] == "Weight is required") &&
      (forall k :: k in f.errors && k != "shippingItem" && k != "cargoWeight" ==> r.errors[k] == f.errors[k])
  {
    var updated := Put(f.record, name, Str(value));
    var errors := Put(f.errors, name, ValidateField(env, name, value, updated));
    var selected := if name == "shippingItem" then FindItem(Str(value)) else None;
    match selected
    case None => Form(updated, errors)
    case Some(item) =>
      assert ValidateField(env, name, value, updated) == "";
      SelectIntendedWeightError(env, f, value, item);
      SelectIntended(env, f, value, item)
  }

  /** The corrected handler's catalog-selection path: the id is stored and
      accepted, then the auto-fill is built on that updated record. */
  function SelectIntended(env: Env, f: Form, value: string, item: ShippingItem): (r: Form)
    requires FindItem(Str(value)) == Some(item)
    ensures Get(r.record, "shippingItem") == Str(value)
    ensures Get(r.record, "cargoWeight") == Num(item.baseWeight as real)
    ensures Get(r.record, "shippingItemName") == Str(item.name)
    ensures forall k :: k != "shippingItem" && k != "cargoWeight" && k != "shippingItemName" ==>
      Get(r.record, k) == Get(f.record, k)
    ensures r.errors.Keys == f.errors.Keys + {"shippingItem", "cargoWeight"}
    ensures r.errors["shippingItem"] == ""
    ensures forall k :: k in f.errors && k != "shippingItem" && k != "cargoWeight" ==> r.errors[k] == f.errors[k]
  {
    AutoFill(env, Form(Put(f.record, "shippingItem", Str(value)), Put(f.errors, "shippingItem", "")), item)
  }

  /** On the corrected selection path the filled weight is checked against
      the selected item: a positive base weight is accepted, and the
      zero-weight entry asks for a weight. */
  lemma SelectIntendedWeightError(env: Env, f: Form, value: string, item: ShippingItem)
    requires FindItem(Str(value)) == Some(item)
    ensures var r := SelectIntended(env, f, value, item);
      (item.baseWeight > 0 ==> r.errors["cargoWeight"] == "") &&
      (item.baseWeight == 0 ==> r.errors["cargoWeight"] == "Weight is required")
  {
    var r := SelectIntended(env, f, value, item);
    assert FindItem(Get(r.record, "shippingItem")) == Some(item);
  }

  /** Selecting Electronics and then typing 1500 kg, as intended: the
      max-weight message naming Electronics and 1000 kg. */
  lemma OverweightAfterSelectionIntended(env: Env)
    requires env.parseNumber("1500") == Some(1500.0)
    ensures var f := HandleChangeIntended(env, Form(map[], map[]), "shippingItem", "electronics");
      HandleChangeIntended(env, f, "cargoWeight", "1500").errors["cargoWeight"] ==
        "Maximum weight for Electronics is 1000kg"
  {
    FindItemById(0);
    var f := HandleChangeIntended(env, Form(map[], map[]), "shippingItem", "electronics");
    ElectronicsOverweight(env, Put(f.record, "cargoWeight", Str("1500")));
  }
}

=== FILE: payment.dfy ===
/** The price-summary step: dimension and payment-method validators, the
    price breakdown derived from weight, dimensions and cargo type, and the
    write-back of the total into the shared record. Numbers are exact reals;
    `Math.round` is rounding half up. */
module Payment {
  import opened Store

  // The pricing constants of the step.
  const BasePricePerKg: real := 5.0
  const VolumeRate: real := 10.0
  const HazardousFee: int := 500
  const MaxDimension: real := 100.0
  const MinDimension: real := 0.1
  /** Declared beside the others but read by no rule of the step. */
  const MaxWeight: real := 10000.0

  /** `r` is the integer nearest to `x`, halves going up. */
  predicate NearestInt(r: int, x: real)
  {
    r as real - 0.5 <= x < r as real + 0.5
  }

  /** `Math.round`. */
  function Round(x: real): (r: int)
    ensures NearestInt(r, x)
  {
    (x + 0.5).Floor
  }

  /** Only one integer is nearest, so `NearestInt` pins the rounded value. */
  lemma NearestIntUnique(r: int, x: real)
    requires NearestInt(r, x)
    ensures r == Round(x)
  {
  }

  /** Adding a whole number before rounding adds it after rounding. */
  lemma RoundShift(x: real, n: int)
    ensures Round(x + n as real) == Round(x) + n
  {
    NearestIntUnique(Round(x) + n, x + n as real);
  }

  // ---- Validation ----

  predicate IsDimension(name: string)
  {
    name == "length" || name == "width" || name == "height"
  }

  /** The dimension rule; messages carry the raw field name. A dimension is
      accepted exactly when it parses into the closed range [0.1, 100]. */
  function ValidateDimension(env: Env, value: string, name: string): (r: string)
    ensures value == "" ==> r == name + " is required"
    ensures value != "" && env.parseNumber(value).None? ==> r == name + " must be a number"
    ensures value != "" && env.parseNumber(value).Some? ==>
      var n := env.parseNumber(value).value;
      (n < MinDimension ==> r == name + " must be at least 0.1m") &&
      (MinDimension <= n && n > MaxDimension ==> r == name + " cannot exceed 100m")
    ensures r == "" <==>
      value != "" && env.parseNumber(value).Some? &&
      MinDimension <= env.parseNumber(value).value <= MaxDimension
  {
    if value == "" then name + " is required"
    else match env.parseNumber(value)
      case None => name + " must be a number"
      case Some(num) =>
        if num < MinDimension then name + " must be at least 0.1m"
        else if num > MaxDimension then name + " cannot exceed 100m"
        else ""
  }

  /** The error message for one field of this step. */
  function ValidateField(env: Env, name: string, value: string): (r: string)
    ensures IsDimension(name) ==> r == ValidateDimension(env, value, name)
    ensures name == "paymentMethod" ==>
      (r != "" <==> value == "") && (r != "" ==> r == "Please select a payment method")
    ensures !IsDimension(name) && name != "paymentMethod" ==> r == ""
  {
    match name
    case "length" => ValidateDimension(env, value, name)
    case "width" => ValidateDimension(env, value, name)
    case "height" => ValidateDimension(env, value, name)
    case "paymentMethod" => if value == "" then "Please select a payment method" else ""
    case _ => ""
  }

  /** A dimension change event: exactly `record[name]` and `errors[name]` are written. */
  function HandleDimensionChange(env: Env, f: Form, name: string, value: string): (r: Form)
    ensures SameExcept(r.record, f.record, name) && Get(r.record, name) == Str(value)
    ensures SameExcept(r.errors, f.errors, name) && name in r.errors
    ensures r.errors[name] == ValidateField(env, name, value)
  {
    Form(Put(f.record, name, Str(value)), Put(f.errors, name, ValidateField(env, name, value)))
  }

  /** The payment-method change: the method is stored and rejected only when empty. */
  function HandlePaymentMethodChange(env: Env, f: Form, value: string): (r: Form)
    ensures SameExcept(r.record, f.record, "paymentMethod")
    ensures Get(r.record, "paymentMethod") == Str(value)
    ensures SameExcept(r.errors, f.errors, "paymentMethod") && "paymentMethod" in r.errors
    ensures r.errors["paymentMethod"] == ValidateField(env, "paymentMethod", value)
    ensures r.errors["paymentMethod"] == "" <==> value != ""
    ensures value == "" ==> r.errors["paymentMethod"] == "Please select a payment method"
  {
    Form(Put(f.record, "paymentMethod", Str(value)),
         Put(f.errors, "paymentMethod", ValidateField(env, "paymentMethod", value)))
  }

  // ---- Pricing ----

  /** What the pricing computation yields: the bare number 0 when an input
      is NaN, a breakdown otherwise. */
  datatype Pricing =
    | BareZero
    | Breakdown(weightPrice: int, volumePrice: int, specialHandlingFee: int, total: int)

  /** `parseFloat(userData[key] || 0)`: a missing or falsy entry is priced as 0. */
  function PricingInput(env: Env, record: Record, key: string): (r: Option<real>)
    ensures !Truthy(Get(record, key)) ==> r == Some(0.0)
    ensures Truthy(Get(record, key)) ==> r == ParseValue(env, Get(record, key))
  {
    var v := Get(record, key);
    ParseValue(env, if Truthy(v) then v else Num(0.0))
  }

  predicate AllInputsParse(env: Env, record: Record)
  {
    PricingInput(env, record, "length").Some? && PricingInput(env, record, "width").Some? &&
    PricingInput(env, record, "height").Some? && PricingInput(env, record, "cargoWeight").Some?
  }

  predicate IsHazardous(record: Record)
  {
    Get(record, "cargoType") == Str("Hazardous Materials")
  }

  /** The breakdown for a weight in kg, three dimensions in metres and a
      fee: each price is the integer nearest its exact amount, and the total
      is the exact sum rounded once. */
  function PriceOf(kg: real, length: real, width: real, height: real, fee: int): (p: Pricing)
    ensures p.Breakdown? && p.specialHandlingFee == fee
    ensures NearestInt(p.weightPrice, kg * BasePricePerKg)
    ensures NearestInt(p.volumePrice, length * width * height * VolumeRate)
    ensures NearestInt(p.total, kg * BasePricePerKg + length * width * height * VolumeRate + fee as real)
  {
    var weightPrice := kg * BasePricePerKg;
    var volumePrice := length * width * height * VolumeRate;
    Breakdown(Round(weightPrice), Round(volumePrice), fee, Round(weightPrice + volumePrice + fee as real))
  }

  /** The fee a record attracts: the hazardous fee for exactly that cargo type. */
  function FeeFor(record: Record): (fee: int)
    ensures fee == HazardousFee <==> IsHazardous(record)
    ensures fee == 0 <==> !IsHazardous(record)
  {
    if IsHazardous(record) then HazardousFee else 0
  }

  /** The price of a record. It is a breakdown exactly when all four inputs
      parse, and then it prices the parsed weight and dimensions with the
      record's fee; since the total is the exact sum rounded once, it can
      differ from the sum of the rounded parts. Dimension validity plays no
      part. */
  function ComputePricing(env: Env, record: Record): (p: Pricing)
    ensures p.BareZero? <==> !AllInputsParse(env, record)
    ensures p.Breakdown? ==>
      p == PriceOf(PricingInput(env, record, "cargoWeight").value, PricingInput(env, record, "length").value,
                   PricingInput(env, record, "width").value, PricingInput(env, record, "height").value,
                   FeeFor(record))
  {
    match (PricingInput(env, record, "length"), PricingInput(env, record, "width"),
           PricingInput(env, record, "height"), PricingInput(env, record, "cargoWeight"))
    case (Some(length), Some(width), Some(height), Some(weight)) =>
      PriceOf(weight, length, width, height, FeeFor(record))
    case _ => BareZero
  }

  /** Two records agree on the five fields pricing depends on. */
  predicate SamePricingFields(a: Record, b: Record)
  {
    Get(a, "cargoType") == Get(b, "cargoType") && Get(a, "cargoWeight") == Get(b, "cargoWeight") &&
    Get(a, "length") == Get(b, "length") && Get(a, "width") == Get(b, "width") &&
    Get(a, "height") == Get(b, "height")
  }

  /** Pricing reads only the five fields the memoised computation lists as
      its dependencies. */
  lemma PricingDependsOnlyOnInputs(env: Env, a: Record, b: Record)
    requires SamePricingFields(a, b)
    ensures ComputePricing(env, a) == ComputePricing(env, b)
  {
    SameInputs(env, a, b);
  }

  lemma SameInputs(env: Env, a: Record, b: Record)
    requires SamePricingFields(a, b)
    ensures IsHazardous(a) == IsHazardous(b)
    ensures forall k :: k in {"cargoWeight", "length", "width", "height"} ==>
      PricingInput(env, a, k) == PricingInput(env, b, k)
  {
    SameInput(env, a, b, "cargoWeight");
    SameInput(env, a, b, "length");
    SameInput(env, a, b, "width");
    SameInput(env, a, b, "height");
  }

  lemma SameInput(env: Env, a: Record, b: Record, key: string)
    requires Get(a, key) == Get(b, key)
    ensures PricingInput(env, a, key) == PricingInput(env, b, key)
  {
  }

  /** Two nearest integers of amounts a whole number apart are that number apart. */
  lemma NearestIntShift(a: int, b: int, x: real, n: int)
    requires NearestInt(a, x + n as real) && NearestInt(b, x)
    ensures a == b + n
  {
  }

  /** A fee is added after the exact sum and before rounding, so it reaches
      the total unchanged and leaves the two rounded parts alone. */
  lemma FeeAddsExactly(kg: real, length: real, width: real, height: real, fee: int)
    ensures var p := PriceOf(kg, length, width, height, fee);
      var q := PriceOf(kg, length, width, height, 0);
      p.weightPrice == q.weightPrice && p.volumePrice == q.volumePrice &&
      p.total == q.total + fee
  {
    var p := PriceOf(kg, length, width, height, fee);
    var q := PriceOf(kg, length, width, height, 0);
    NearestIntShift(p.total, q.total, kg * BasePricePerKg + length * width * height * VolumeRate, fee);
    NearestIntShift(p.weightPrice, q.weightPrice, kg * BasePricePerKg, 0);
    NearestIntShift(p.volumePrice, q.volumePrice, length * width * height * VolumeRate, 0);
  }

  /** Because rounding happens after the fee is added, a hazardous shipment
      costs exactly 500 more than the same shipment of any other type. */
  lemma HazardousAddsExactlyFee(env: Env, record: Record, otherType: string)
    requires AllInputsParse(env, record)
    requires otherType != "Hazardous Materials"
    ensures var hazardous := ComputePricing(env, Put(record, "cargoType", Str("Hazardous Materials")));
      var plain := ComputePricing(env, Put(record, "cargoType", Str(otherType)));
      hazardous.Breakdown? && plain.Breakdown? &&
      hazardous.weightPrice == plain.weightPrice && hazardous.volumePrice == plain.volumePrice &&
      hazardous.specialHandlingFee == HazardousFee && plain.specialHandlingFee == 0 &&
      hazardous.total == plain.total + HazardousFee
  {
    var h := Put(record, "cargoType", Str("Hazardous Materials"));
    var o := Put(record, "cargoType", Str(otherType));
    SameKeyInput(env, record, h, "cargoWeight");
    SameKeyInput(env, record, h, "length");
    SameKeyInput(env, record, h, "width");
    SameKeyInput(env, record, h, "height");
    SameKeyInput(env, record, o, "cargoWeight");
    SameKeyInput(env, record, o, "length");
    SameKeyInput(env, record, o, "width");
    SameKeyInput(env, record, o, "height");
    assert FeeFor(h) == HazardousFee && FeeFor(o) == 0;
    FeeAddsExactly(PricingInput(env, record, "cargoWeight").value, PricingInput(env, record, "length").value,
                   PricingInput(env, record, "width").value, PricingInput(env, record, "height").value,
                   HazardousFee);
  }

  /** Writing `cargoType` leaves every other pricing input as it was. */
  lemma SameKeyInput(env: Env, record: Record, updated: Record, key: string)
    requires SameExcept(updated, record, "cargoType") && key != "cargoType"
    ensures PricingInput(env, updated, key) == PricingInput(env, record, key)
  {
    assert key in updated <==> key in updated.Keys - {"cargoType"};
    assert key in record <==> key in record.Keys - {"cargoType"};
  }

  /** 10 kg in a 2 x 2 x 2 m box: 50 + 80 = 130 as general cargo, 630 when hazardous. */
  lemma WorkedExample(env: Env)
    requires env.parseNumber("10") == Some(10.0) && env.parseNumber("2") == Some(2.0)
    ensures var r := map["cargoWeight" := Str("10"), "length" := Str("2"), "width" := Str("2"),
                         "height" := Str("2"), "cargoType" := Str("General Cargo")];
      ComputePricing(env, r) == Breakdown(50, 80, 0, 130) &&
      ComputePricing(env, Put(r, "cargoType", Str("Hazardous Materials"))) == Breakdown(50, 80, 500, 630)
  {
    var r := map["cargoWeight" := Str("10"), "length" := Str("2"), "width" := Str("2"),
                 "height" := Str("2"), "cargoType" := Str("General Cargo")];
    assert PricingInput(env, r, "cargoWeight") == Some(10.0);
    assert PricingInput(env, r, "length") == Some(2.0);
    assert PricingInput(env, r, "width") == Some(2.0);
    assert PricingInput(env, r, "height") == Some(2.0);
    NearestIntUnique(50, 50.0);
    NearestIntUnique(80, 80.0);
    NearestIntUnique(130, 130.0);
    HazardousAddsExactlyFee(env, r, "General Cargo");
    assert Put(r, "cargoType", Str("General Cargo")) == r;
  }

  /** An out-of-range length is reported by the validator and still priced. */
  lemma OutOfRangeStillPriced(env: Env)
    requires env.parseNumber("200") == Some(200.0) && env.parseNumber("2") == Some(2.0)
    ensures ValidateField(env, "length", "200") == "length cannot exceed 100m"
    ensures var r := map["length" := Str("200"), "width" := Str("2"), "height" := Str("2")];
      ComputePricing(env, r) == Breakdown(0, 8000, 0, 8000)
  {
    LengthOverMaxReported(env);
    var r := map["length" := Str("200"), "width" := Str("2"), "height" := Str("2")];
    assert Get(r, "cargoWeight") == Undefined && Get(r, "cargoType") == Undefined;
    PricesParsedInputs(env, r, 0.0, 200.0, 2.0, 2.0);
    PriceOfConstants(0.0, 200.0, 2.0, 2.0, 0, 0, 8000, 8000);
  }

  lemma LengthOverMaxReported(env: Env)
    requires env.parseNumber("200") == Some(200.0)
    ensures ValidateField(env, "length", "200") == "length cannot exceed 100m"
  {
    assert ValidateField(env, "length", "200") == "length" + " cannot exceed 100m";
    assert "length" + " cannot exceed 100m" == "length cannot exceed 100m";
  }

  /** A record whose four inputs parse is priced from those numbers. */
  lemma PricesParsedInputs(env: Env, r: Record, kg: real, length: real, width: real, height: real)
    requires PricingInput(env, r, "cargoWeight") == Some(kg)
    requires PricingInput(env, r, "length") == Some(length)
    requires PricingInput(env, r, "width") == Some(width)
    requires PricingInput(env, r, "height") == Some(height)
    ensures ComputePricing(env, r) == PriceOf(kg, length, width, height, FeeFor(r))
  {
  }

  /** Pricing exact amounts that are already whole numbers. */
  lemma PriceOfConstants(kg: real, length: real, width: real, height: real, fee: int,
                         w: int, v: int, t: int)
    requires kg * BasePricePerKg == w as real
    requires length * width * height * VolumeRate == v as real
    requires t == w + v + fee
    ensures PriceOf(kg, length, width, height, fee) == Breakdown(w, v, fee, t)
  {
    var p := PriceOf(kg, length, width, height, fee);
    NearestIntUnique(p.weightPrice, w as real);
    NearestIntUnique(p.volumePrice, v as real);
    NearestIntUnique(p.total, t as real);
  }

  // ---- Write-back of the total ----

  /** `{ ...prev, totalPrice: pricing.total }` as written: the total of a
      breakdown, or `undefined` when pricing is the bare 0. Only
      `totalPrice` changes. */
  function WriteBack(env: Env, record: Record): (r: Record)
    ensures SameExcept(r, record, "totalPrice") && "totalPrice" in r
    ensures AllInputsParse(env, record) ==> r["totalPrice"] == Num(ComputePricing(env, record).total as real)
    ensures !AllInputsParse(env, record) ==> r["totalPrice"] == Undefined
  {
    var total := match ComputePricing(env, record)
      case BareZero => Undefined
      case Breakdown(_, _, _, t) => Num(t as real);
    Put(record, "totalPrice", total)
  }

  /** The write-back does not disturb the price it was computed from, so the
      effect settles after one run: writing back twice is writing back once. */
  lemma WriteBackSettles(env: Env, record: Record)
    ensures ComputePricing(env, WriteBack(env, record)) == ComputePricing(env, record)
    ensures WriteBack(env, WriteBack(env, record)) == WriteBack(env, record)
  {
    PricingDependsOnlyOnInputs(env, WriteBack(env, record), record);
  }

  /** The write-back as evidently intended: an unparseable input gives a
      total of 0, so `totalPrice` is always a number. */
  function WriteBackIntended(env: Env, record: Record): (r: Record)
    ensures SameExcept(r, record, "totalPrice") && "totalPrice" in r && r["totalPrice"].Num?
    ensures AllInputsParse(env, record) ==> r == WriteBack(env, record)
    ensures !AllInputsParse(env, record) ==> r["totalPrice"] == Num(0.0)
  {
    var total := match ComputePricing(env, record)
      case BareZero => 0
      case Breakdown(_, _, _, t) => t;
    Put(record, "totalPrice", Num(total as real))
  }

  /** As written, a weight that does not parse leaves `totalPrice` undefined. */
  lemma UnparseableWeightLeavesTotalUndefined(env: Env, record: Record)
    requires env.parseNumber("abc") == None
    requires Get(record, "cargoWeight") == Str("abc")
    ensures WriteBack(env, record)["totalPrice"] == Undefined
    ensures WriteBackIntended(env, record)["totalPrice"] == Num(0.0)
  {
  }
}

=== FILE: personal_info.dfy ===
/** The personal-information step: validators for the contact fields and the
    change / blur handlers that write the shared record and this step's
    error mapping. Validation here looks at the edited value only. */
module PersonalInfo {
  import opened Store
  import opened Text

  // ---- The three patterns, as the regular expressions read ----

  /** `/^[a-zA-Z\s]+$/`. */
  predicate MatchesNamePattern(s: string)
  {
    |s| > 0 && forall i :: 0 <= i < |s| ==> IsAsciiLetter(s[i]) || IsSpace(s[i])
  }

  /** A run of `[^\s@]+`. */
  predicate EmailPart(t: string)
  {
    |t| > 0 && forall i :: 0 <= i < |t| ==> !IsSpace(t[i]) && t[i] != '@'
  }

  /** `/^[^\s@]+@[^\s@]+\.[^\s@]+$/`, with the backtracking choices of the
      `@` at `i` and of the literal dot at `j` made explicit. */
  ghost predicate MatchesEmailPattern(s: string)
  {
    exists i, j :: 0 < i < j < |s| - 1 && s[i] == '@' && s[j] == '.' &&
      EmailPart(s[..i]) && EmailPart(s[i + 1..j]) && EmailPart(s[j + 1..])
  }

  /** A run of `[\d\s-]{10,}`. */
  predicate PhoneBody(t: string)
  {
    |t| >= 10 && forall i :: 0 <= i < |t| ==> IsDigit(t[i]) || IsSpace(t[i]) || t[i] == '-'
  }

  /** `/^\+?[\d\s-]{10,}$/`: the optional plus taken or not. */
  ghost predicate MatchesPhonePattern(s: string)
  {
    (|s| > 0 && s[0] == '+' && PhoneBody(s[1..])) || PhoneBody(s)
  }

  // ---- Executable recognisers ----

  /** Index of the first `c` in `s`, or `|s|` when there is none. */
  function IndexOf(s: string, c: char): (k: nat)
    ensures k <= |s|
    ensures k < |s| ==> s[k] == c
    ensures forall i :: 0 <= i < k ==> s[i] != c
  {
    if s == [] then 0
    else if s[0] == c then 0
    else 1 + IndexOf(s[1..], c)
  }

  /** Recognises an email address by its structure: the first `@` is not at
      the start, the text on either side of it has no whitespace and no
      further `@`, and a dot stands strictly inside the domain. */
  predicate IsEmailFormat(s: string)
  {
    var i := IndexOf(s, '@');
    0 < i < |s| &&
    EmailPart(s[..i]) && EmailPart(s[i + 1..]) &&
    var d := s[i + 1..];
    |d| >= 3 && '.' in d[1..|d| - 1]
  }

  predicate IsPhoneFormat(s: string)
  {
    if |s| > 0 && s[0] == '+' then PhoneBody(s[1..]) else PhoneBody(s)
  }

  /** Splitting a run of `[^\s@]` keeps both halves `[^\s@]` runs. */
  lemma EmailPartSlices(t: string, a: nat, b: nat)
    requires EmailPart(t) && a < b <= |t|
    ensures EmailPart(t[a..b])
  {
  }

  /** Soundness: what the structural recogniser accepts, the pattern matches. */
  lemma EmailFormatMatches(s: string)
    requires IsEmailFormat(s)
    ensures MatchesEmailPattern(s)
  {
    var i := IndexOf(s, '@');
    var d := s[i + 1..];
    var k :| 0 <= k < |d[1..|d| - 1]| && d[1..|d| - 1][k] == '.';
    var j := i + 2 + k;
    assert d[1..|d| - 1][k] == d[k + 1] == s[j];
    assert d[..k + 1] == s[i + 1..][..k + 1] == s[i + 1..j];
    assert d[k + 2..] == s[i + 1..][k + 2..] == s[j + 1..];
    EmailPartSlices(d, 0, k + 1);
    EmailPartSlices(d, k + 2, |d|);
  }

  /** Two `[^\s@]` runs joined by a dot form one `[^\s@]` run. */
  lemma EmailPartJoin(b: string, c: string)
    requires EmailPart(b) && EmailPart(c)
    ensures EmailPart(b + "." + c)
  {
    var d := b + "." + c;
    forall x | 0 <= x < |d|
      ensures !IsSpace(d[x]) && d[x] != '@'
    {
      if x < |b| {
        assert d[x] == b[x];
      } else if x > |b| {
        assert d[x] == c[x - |b| - 1];
      }
    }
  }

  /** The `@` the pattern chooses is the first one in the string. */
  lemma PatternAtIsFirst(s: string, i: nat)
    requires i < |s| && s[i] == '@' && EmailPart(s[..i])
    ensures IndexOf(s, '@') == i
  {
  }

  /** Completeness for one choice of the `@` and the dot. */
  lemma PatternChoiceIsEmailFormat(s: string, i: nat, j: nat)
    requires 0 < i < j < |s| - 1 && s[i] == '@' && s[j] == '.'
    requires EmailPart(s[..i]) && EmailPart(s[i + 1..j]) && EmailPart(s[j + 1..])
    ensures IsEmailFormat(s)
  {
    PatternAtIsFirst(s, i);
    var d := s[i + 1..];
    assert d == s[i + 1..j] + "." + s[j + 1..];
    EmailPartJoin(s[i + 1..j], s[j + 1..]);
    assert d[1..|d| - 1][j - i - 2] == '.';
  }

  /** Completeness: whatever the pattern matches, the recogniser accepts. */
  lemma PatternIsEmailFormat(s: string)
    requires MatchesEmailPattern(s)
    ensures IsEmailFormat(s)
  {
    var i, j :| 0 < i < j < |s| - 1 && s[i] == '@' && s[j] == '.' &&
      EmailPart(s[..i]) && EmailPart(s[i + 1..j]) && EmailPart(s[j + 1..]);
    PatternChoiceIsEmailFormat(s, i, j);
  }

  /** The structural recogniser accepts exactly what the email pattern matches. */
  lemma EmailFormatIffPattern(s: string)
    ensures IsEmailFormat(s) <==> MatchesEmailPattern(s)
  {
    if IsEmailFormat(s) {
      EmailFormatMatches(s);
    }
    if MatchesEmailPattern(s) {
      PatternIsEmailFormat(s);
    }
  }

  /** Any local part, domain label and suffix free of whitespace and `@`
      compose into an address the pattern accepts. */
  lemma ComposedEmailMatches(a: string, b: string, c: string)
    requires EmailPart(a) && EmailPart(b) && EmailPart(c)
    ensures MatchesEmailPattern(a + "@" + b + "." + c)
  {
    var s := a + "@" + b + "." + c;
    var i, j := |a|, |a| + 1 + |b|;
    assert s[..i] == a;
    assert s[i + 1..j] == b;
    assert s[j + 1..] == c;
    assert s[i] == '@' && s[j] == '.';
  }

  /** The phone recogniser accepts exactly what the phone pattern matches:
      a leading plus can only be the optional one, because `+` is not in
      the character class. */
  lemma PhoneFormatIffPattern(s: string)
    ensures IsPhoneFormat(s) <==> MatchesPhonePattern(s)
  {
    if |s| > 0 && s[0] == '+' {
      assert !PhoneBody(s);
    }
  }

  // ---- The validator and the handlers ----

  /** The error message for one field of this step. */
  function ValidateField(name: string, value: string): (r: string)
    ensures name == "fullname" && AllSpace(value) ==> r == "Name is required"
    ensures name == "fullname" && !AllSpace(value) && |value| < 2 ==>
      r == "Name must be at least 2 characters"
    ensures name == "fullname" && !AllSpace(value) && |value| >= 2 ==>
      (r == "" <==> MatchesNamePattern(value)) &&
      (r != "" ==> r == "Name can only contain letters")
    ensures name == "email" && value == "" ==> r == "Email is required"
    ensures name == "email" && value != "" ==>
      (r == "" <==> MatchesEmailPattern(value)) &&
      (r != "" ==> r == "Invalid email format")
    ensures name == "phoneNumber" && value == "" ==> r == "Phone number is required"
    ensures name == "phoneNumber" && value != "" ==>
      (r == "" <==> MatchesPhonePattern(value)) &&
      (r != "" ==> r == "Invalid phone number format")
    ensures name !in {"fullname", "email", "phoneNumber"} ==> r == ""
  {
    EmailFormatIffPattern(value);
    PhoneFormatIffPattern(value);
    match name
    case "fullname" =>
      if Trim(value) == [] then "Name is required"
      else if |value| < 2 then "Name must be at least 2 characters"
      else if !MatchesNamePattern(value) then "Name can only contain letters"
      else ""
    case "email" =>
      if value == "" then "Email is required"
      else if !IsEmailFormat(value) then "Invalid email format"
      else ""
    case "phoneNumber" =>
      if value == "" then "Phone number is required"
      else if !IsPhoneFormat(value) then "Invalid phone number format"
      else ""
    case _ => ""
  }

  /** A change event: the record and this step's errors each get exactly one
      key written, `name`; nothing else changes. */
  function HandleChange(f: Form, name: string, value: string): (r: Form)
    ensures SameExcept(r.record, f.record, name) && Get(r.record, name) == Str(value)
    ensures SameExcept(r.errors, f.errors, name) && name in r.errors
    ensures r.errors[name] == ValidateField(name, value)
  {
    Form(Put(f.record, name, Str(value)), Put(f.errors, name, ValidateField(name, value)))
  }

  /** A blur event: the record is untouched and only `errors[name]` is written. */
  function HandleBlur(f: Form, name: string, value: string): (r: Form)
    ensures r.record == f.record
    ensures SameExcept(r.errors, f.errors, name) && name in r.errors
    ensures r.errors[name] == ValidateField(name, value)
  {
    Form(f.record, Put(f.errors, name, ValidateField(name, value)))
  }

  /** The message a change records depends on the edited value alone: two
      forms with different records and errors get the same message. */
  lemma ValidationIgnoresRecord(f: Form, g: Form, name: string, value: string)
    ensures HandleChange(f, name, value).errors[name] == HandleChange(g, name, value).errors[name]
    ensures HandleBlur(f, name, value).errors[name] == HandleChange(g, name, value).errors[name]
  {
  }

  /** Length is measured before trimming: a single letter after a space is
      long enough, and a padded single letter is a valid name. */
  lemma UntrimmedLengthCounts()
    ensures ValidateField("fullname", " a") == ""
    ensures ValidateField("fullname", "a") == "Name must be at least 2 characters"
    ensures ValidateField("fullname", "  ") == "Name is required"
  {
    PaddedLetterIsName();
    SingleLetterIsShort();
    SpacesAreBlank();
  }

  lemma PaddedLetterIsName()
    ensures ValidateField("fullname", " a") == ""
  {
    var v := " a";
    assert IsSpace(v[0]) && IsAsciiLetter(v[1]) && !IsSpace(v[1]);
    assert !AllSpace(v) && |v| == 2 && MatchesNamePattern(v);
  }

  lemma SingleLetterIsShort()
    ensures ValidateField("fullname", "a") == "Name must be at least 2 characters"
  {
    var v := "a";
    assert !IsSpace(v[0]);
    assert !AllSpace(v) && |v| == 1;
  }

  lemma SpacesAreBlank()
    ensures ValidateField("fullname", "  ") == "Name is required"
  {
    var v := "  ";
    assert IsSpace(v[0]) && IsSpace(v[1]);
    assert AllSpace(v);
  }

  /** The worked scenario: "bad" is rejected, "a@b.com" accepted. */
  lemma EmailScenario()
    ensures ValidateField("email", "bad") == "Invalid email format"
    ensures ValidateField("email", "a@b.com") == ""
  {
    ComposedEmailMatches("a", "b", "com");
    assert "a" + "@" + "b" + "." + "com" == "a@b.com";
    assert IndexOf("bad", '@') == 3;
    EmailFormatIffPattern("bad");
  }
}

=== FILE: store.dfy ===
/** The booking record store shared by every step of the wizard: the record
    itself (an open mapping from field name to a JavaScript value), the
    per-step error mapping, and the merge-style update every handler uses. */
module Store {

  datatype Option<+T> = None | Some(value: T)

  /** The JavaScript values the core stores in the record. Form events always
      carry strings; the shipping-item auto-fill stores a number, and the
      price write-back can store `undefined`. */
  datatype Value = Undefined | Str(s: string) | Num(n: real)

  type Record = map<string, Value>

  /** Field name to message; the empty message means "valid". */
  type Errors = map<string, string>

  /** The state a step component works on: the shared record and its own errors. */
  datatype Form = Form(record: Record, errors: Errors)

  /** What the core takes from the JavaScript runtime: `parseFloat` (None is NaN),
      `new Date(value)` as a timestamp (None is an invalid date), and the two
      clock readings the delivery-date rule compares against. */
  datatype Env = Env(
    parseNumber: string -> Option<real>,
    parseDate: string -> Option<int>,
    today: int,
    maxDate: int)

  /** Property read: an absent key reads as `undefined`. */
  function Get(r: Record, key: string): (v: Value)
    ensures key !in r ==> v == Undefined
    ensures key in r ==> v == r[key]
  {
    if key in r then r[key] else Undefined
  }

  /** JavaScript truthiness of a stored value (`!value` is its negation):
      `undefined`, the empty string and zero are the falsy ones. */
  function Truthy(v: Value): (t: bool)
    ensures !t <==> v in {Undefined, Str(""), Num(0.0)}
  {
    match v
    case Undefined => false
    case Str(s) => s != ""
    case Num(n) => n != 0.0
  }

  /** `parseFloat(v)`: a string goes through the runtime parser, a number is
      itself, `undefined` is NaN. */
  function ParseValue(env: Env, v: Value): (r: Option<real>)
    ensures v == Undefined ==> r == None
    ensures v.Str? ==> r == env.parseNumber(v.s)
    ensures v.Num? ==> r == Some(v.n)
  {
    match v
    case Undefined => None
    case Str(s) => env.parseNumber(s)
    case Num(n) => Some(n)
  }

  /** The spread update `{ ...m, [key]: v }`: one key is written, every other
      key keeps its presence and its value. */
  function Put<V(==)>(m: map<string, V>, key: string, v: V): (m': map<string, V>)
    ensures m'.Keys == m.Keys + {key}
    ensures key in m' && m'[key] == v
    ensures forall k :: k in m && k != key ==> m'[k] == m[k]
    ensures SameExcept(m', m, key)
  {
    m[key := v]
  }

  /** A shallow merge `{ ...m, ...partial }`: the partial record wins on shared
      keys and no key of either side is lost. */
  function Merge<V>(m: map<string, V>, partial: map<string, V>): (m': map<string, V>)
    ensures m'.Keys == m.Keys + partial.Keys
    ensures forall k :: k in partial ==> m'[k] == partial[k]
    ensures forall k :: k in m && k !in partial ==> m'[k] == m[k]
  {
    m + partial
  }

  /** Reading a merged record: the partial record's entry if it has one,
      otherwise the base record's, `undefined` if neither has the key. */
  lemma GetMerge(m: Record, partial: Record)
    ensures forall k :: Get(Merge(m, partial), k) == if k in partial then partial[k] else Get(m, k)
  {
  }

  /** Two records agree on every key except `key`. */
  predicate SameExcept<V(==)>(a: map<string, V>, b: map<string, V>, key: string)
  {
    a.Keys - {key} == b.Keys - {key} &&
    (forall k :: k in a && k in b && k != key ==> a[k] == b[k])
  }

  /** Two spread updates to different keys commute, and both values are
      kept. */
  lemma PutsCommute<V>(m: map<string, V>, k1: string, v1: V, k2: string, v2: V)
    requires k1 != k2
    ensures Put(Put(m, k1, v1), k2, v2) == Put(Put(m, k2, v2), k1, v1)
    ensures Put(Put(m, k1, v1), k2, v2)[k1] == v1 && Put(Put(m, k1, v1), k2, v2)[k2] == v2
  {
  }

  /** A spread update is a shallow merge of a one-key record. */
  lemma PutIsMerge<V>(m: map<string, V>, key: string, v: V)
    ensures Put(m, key, v) == Merge(m, map[key := v])
  {
  }
}

=== FILE: text.dfy ===
/** Character classes and string helpers the validators share: the
    ECMAScript whitespace set (what `\s` matches and what `trim` strips),
    `String.prototype.trim`, and the decimal rendering of whole numbers used
    in template-literal messages. */
module Text {

  /** ECMAScript WhiteSpace and LineTerminator code points (the `\s` class). */
  predicate IsSpace(c: char)
  {
    c == '\t' || c == '\n' || c == '\U{B}' || c == '\U{C}' || c == '\r' ||
    c == ' ' || c == '\U{A0}' || c == '\U{1680}' ||
    ('\U{2000}' <= c <= '\U{200A}') ||
    c == '\U{2028}' || c == '\U{2029}' || c == '\U{202F}' || c == '\U{205F}' ||
    c == '\U{3000}' || c == '\U{FEFF}'
  }

  predicate IsAsciiLetter(c: char)
  {
    ('a' <= c <= 'z') || ('A' <= c <= 'Z')
  }

  /** The `\d` class. */
  predicate IsDigit(c: char)
  {
    '0' <= c <= '9'
  }

  predicate AllSpace(s: string)
  {
    forall i :: 0 <= i < |s| ==> IsSpace(s[i])
  }

  /** Leading whitespace removed: the result is a suffix of `s`, what was cut
      is all whitespace, and what is left does not start with whitespace. */
  function TrimStart(s: string): (r: string)
    ensures |r| <= |s| && r == s[|s| - |r|..]
    ensures AllSpace(s[..|s| - |r|])
    ensures r == [] || !IsSpace(r[0])
  {
    if |s| > 0 && IsSpace(s[0]) then
      var r := TrimStart(s[1..]);
      assert s[..|s| - |r|] == [s[0]] + s[1..][..|s| - 1 - |r|];
      r
    else
      s
  }

  /** Trailing whitespace removed: the result is a prefix of `s`, what was cut
      is all whitespace, and what is left does not end with whitespace. */
  function TrimEnd(s: string): (r: string)
    ensures |r| <= |s| && r == s[..|r|]
    ensures AllSpace(s[|r|..])
    ensures r == [] || !IsSpace(r[|r| - 1])
  {
    if |s| > 0 && IsSpace(s[|s| - 1]) then
      var r := TrimEnd(s[..|s| - 1]);
      assert s[|r|..] == s[..|s| - 1][|r|..] + [s[|s| - 1]];
      r
    else
      s
  }

  /** `String.prototype.trim`: leading whitespace is cut (see `TrimStart`),
      then trailing whitespace; what is left neither starts nor ends with
      whitespace, and it is empty exactly when `s` is all whitespace. */
  function Trim(s: string): (r: string)
    ensures |r| <= |TrimStart(s)| <= |s| && r == TrimStart(s)[..|r|] && AllSpace(TrimStart(s)[|r|..])
    ensures r == [] || (!IsSpace(r[0]) && !IsSpace(r[|r| - 1]))
    ensures r == [] <==> AllSpace(s)
  {
    var t := TrimStart(s);
    var r := TrimEnd(t);
    assert r != [] ==> r[0] == t[0];
    TrimEmptyIffAllSpace(s);
    r
  }

  /** `!value.trim()` holds exactly for strings made only of whitespace
      (including the empty string). */
  lemma TrimEmptyIffAllSpace(s: string)
    ensures TrimEnd(TrimStart(s)) == [] <==> AllSpace(s)
  {
    var t := TrimStart(s);
    if TrimEnd(t) == [] {
      assert AllSpace(t[0..]);
      assert t == [];
      assert s[..|s|] == s;
    } else {
      var r := TrimEnd(t);
      assert r == t[..|r|];
      assert t != [] && !IsSpace(t[0]);
      assert t == s[|s| - |t|..];
      assert !IsSpace(s[|s| - |t|]);
    }
  }

  function DigitChar(d: nat): (c: char)
    requires d < 10
    ensures IsDigit(c)
  {
    ['0', '1', '2', '3', '4', '5', '6', '7', '8', '9'][d]
  }

  function DigitValue(c: char): nat
    requires IsDigit(c)
  {
    (c as int - '0' as int) as nat
  }

  /** The decimal number a string of digits denotes. */
  function DecimalValue(s: string): nat
    requires forall i :: 0 <= i < |s| ==> IsDigit(s[i])
  {
    if s == [] then 0 else 10 * DecimalValue(s[..|s| - 1]) + DigitValue(s[|s| - 1])
  }

  /** How a template literal renders a non-negative whole number: digits only,
      without a leading zero. */
  function NatToString(n: nat): (r: string)
    ensures |r| > 0
    ensures forall i :: 0 <= i < |r| ==> IsDigit(r[i])
    ensures r[0] != '0' || n == 0
  {
    if n < 10 then [DigitChar(n)] else NatToString(n / 10) + [DigitChar(n % 10)]
  }

  /** Rendering is faithful: the digits read back as the number rendered. */
  lemma {:induction false} NatToStringRoundTrip(n: nat)
    ensures DecimalValue(NatToString(n)) == n
  {
    var r := NatToString(n);
    if n < 10 {
      assert r[..|r| - 1] == [];
    } else {
      NatToStringRoundTrip(n / 10);
      assert r[..|r| - 1] == NatToString(n / 10);
    }
  }

  /** Distinct numbers render as distinct strings. */
  lemma NatToStringInjective(m: nat, n: nat)
    requires NatToString(m) == NatToString(n)
    ensures m == n
  {
    NatToStringRoundTrip(m);
    NatToStringRoundTrip(n);
  }
}
